=== FILE: README.md ===
# SvxMet client core in Dafny

SvxMet is a browser client for airport weather. The operator searches for an airport by identifier, sees its current observation (METAR) as a tooltip on a persistent map, and sends the identifier to an SMS/DTMF bridge. The identifier travels as a telephone-keypad press sequence. This project models the logic of `src/svxmet/src/App_met.jsx` and proves properties about it:

- **Keypad encoder** (`icaoToSmsSequence`): module `Keypad` in `Keypad.dfy`, with `Strings.dfy` supplying `join`/`split`. A 4-character identifier is upper-cased. Each character becomes its multi-tap run, for example `E` → `33`. The runs are joined by `*` and a `#` is appended. A decoder serves as the encoder's inverse, and the 26-entry table is checked against the keypad layout (keys 2–9).
- **Tooltip** (`buildTooltip`): module `Tooltips`. It maps an optional observation to an optional tooltip record. The record holds five display cells (`–` for a missing value) and the wind arrow's rotation `(wdir + 90) mod 360`.
- **Map widget lifecycle** (the `useEffect` of `MapSection`): module `MapSection`. One run of the effect is a pure function from the component's refs and props to the new refs plus the list of calls made on the map library. A `Surface` datatype replays those calls, which makes "one map, at most one marker" a property of what is drawn, not only of the bookkeeping.
- **App pipeline** (`App`): module `Pipeline`. Each async effect is a *start* transition that may issue a request and a later *completion* transition that receives an `Outcome`. An outcome is either `Threw(message)` or `Responded(ok, body)`, where the body is either unparseable JSON or a payload. A `World` pairs the app state with its outstanding requests. Events are user actions or the reply to one outstanding request, in any order. `PipelineProofs` proves the invariants of every reachable world. `PipelineScenarios` pins down behaviour in particular event orders.

The model follows the code as written. Observation replies carry no generation tag, so whichever reply arrives last is shown: `PipelineScenarios.LateReplyOverwritesNewerSelection` proves that a late observation for airport A is shown while B is selected. The observation effect does not clear the previous data when a new lookup starts (`Pipeline.OnDetail`). A non-letter inside a 4-character identifier becomes an empty run; it does not make the whole result empty (`Keypad.NonLetterLeavesEmptyRun`).

## Model

| member | source | states |
|---|---|---|
| Keypad.SmsSequence | src/svxmet/src/App_met.jsx:98-115 | the result is "" exactly when the identifier is missing or not 4 characters long; otherwise it ends in '#', holds exactly one '#' and exactly three '*' |
| Keypad.TableEntryFollowsKeypad | src/svxmet/src/App_met.jsx:102-107 | every table entry is its letter's key digit repeated once per position of the letter in the key's group (ABC on 2 … WXYZ on 9) |
| Keypad.TableFollowsKeypad | src/svxmet/src/App_met.jsx:102-109 | looking up an upper-cased character gives the keypad run for letters of either case and an empty run for anything else |
| Keypad.RunLength | src/svxmet/src/App_met.jsx:102-107 | a letter takes 1 to 4 presses, and 4 exactly for S and Z |
| Keypad.SmsSequenceSpelled | src/svxmet/src/App_met.jsx:109-110 | on a 4-character input the result is the four keypad runs (empty for non-letters, case-insensitive) separated by '*' and followed by one '#' |
| Keypad.EncodedForm | src/svxmet/src/App_met.jsx:109-110 | the joined runs never end in '#', so the terminator is always appended exactly once |
| Keypad.DecodeSmsSequence | src/svxmet/src/App_met.jsx:98-110 | decoding the sequence of a 4-letter identifier gives back the identifier in upper case |
| Keypad.SmsSequenceOfDecoded | src/svxmet/src/App_met.jsx:98-110 | every sequence the decoder accepts is exactly the encoder's output for the identifier it decodes to |
| Keypad.SmsSequenceInjective | src/svxmet/src/App_met.jsx:98-110 | two 4-letter identifiers with the same sequence are equal ignoring case |
| Keypad.EddlExample | src/svxmet/src/App_met.jsx:98-110 | "EDDL" and "eddl" both encode to "33*3*3*555#" |
| Keypad.NonLetterLeavesEmptyRun | src/svxmet/src/App_met.jsx:109-110 | "ED1L" encodes to "33*3**555#": the digit leaves an empty run and the result is not empty |
| Keypad.EmptyRunDoesNotDecode | src/svxmet/src/App_met.jsx:109 | the decoder rejects "33*3**555#", the output for "ED1L" |
| Keypad.NoIdentifierHasEmptyRun | src/svxmet/src/App_met.jsx:98-110 | no identifier of four letters, in either case, encodes to "33*3**555#" |
| Keypad.GuardRejects | src/svxmet/src/App_met.jsx:100 | a 5-character string, the empty string and a missing value all encode to "" |
| Tooltips.BuildTooltip | src/svxmet/src/App_met.jsx:22-42 | no tooltip exactly when the observation is missing; the rotation lies in [0, 360) and is congruent to wdir (0 when missing) plus 90; the wind cell is the placeholder exactly when wdir is missing |
| Tooltips.Rotation | src/svxmet/src/App_met.jsx:26-27 | the arrow rotation is the unique angle in [0, 360) congruent to wdir + 90 |
| Tooltips.TooltipShowsObservation | src/svxmet/src/App_met.jsx:24-42 | for an observation with no value equal to the placeholder, reading the cells back recovers it: a placeholder exactly for each missing value, every present value shown as it is |
| Tooltips.ArrowPointsDownwind | src/svxmet/src/App_met.jsx:26-27 | turning the arrow back by 90 degrees recovers the wind direction modulo 360 |
| Tooltips.RotationExamples | src/svxmet/src/App_met.jsx:27 | wdir 0 gives 90, wdir 270 gives 0, a missing wdir gives 90, wdir 360 gives 90 |
| MapSection.EffectiveZoom | src/svxmet/src/App_met.jsx:53 | the zoom is never 0: absent, NaN or 0 become 10 and any other number is kept |
| MapSection.Update | src/svxmet/src/App_met.jsx:48-93 | an unattached surface, a null or undefined coordinate, or a NaN coordinate leaves the widget unchanged with no call; otherwise the view is (lat, lon, zoom), there is no marker exactly for "Weltkarte", the marker sits at (lat, lon) with the observation's tooltip, and a map is created exactly when none existed |
| MapSection.UpdateIdempotent | src/svxmet/src/App_met.jsx:48-93 | running the effect again with the same props leaves the widget as the first run left it |
| MapSection.UpdateForgetsHistory | src/svxmet/src/App_met.jsx:56-92 | once the map exists, the widget after a usable update depends only on the props |
| MapSection.LaterUpdateOnlySetsView | src/svxmet/src/App_met.jsx:57-66 | with an existing map, an update starts by re-setting the view and creates neither a map nor a tile layer |
| MapSection.MarkerReplaced | src/svxmet/src/App_met.jsx:69-86 | a previous marker is removed immediately before the new one is added |
| MapSection.UpdateKeepsMirror | src/svxmet/src/App_met.jsx:56-92 | if the drawn surface matches the component's refs before an update, it matches them after the calls the update makes |
| MapSection.ReplayKeepsMirror | src/svxmet/src/App_met.jsx:48-93 | the surface keeps matching the refs over any sequence of renders |
| MapSection.ReplayCreatesWidget | src/svxmet/src/App_met.jsx:49-66 | after a sequence of renders the map exists exactly when it existed before or some render was usable |
| MapSection.SingleMapAndMarker | src/svxmet/src/App_met.jsx:48-93 | from a blank surface, any renders create at most one map (exactly one once a render was usable), one tile layer per map, and at most one drawn marker, the one the refs remember |
| Pipeline.ErrorText | src/svxmet/src/App_met.jsx:181 | an error message is never empty: the thrown message when it has one, else the fallback |
| Pipeline.FirstMatch | src/svxmet/src/App_met.jsx:165 | the index of the first airport with the identifier, or the list length when none has it |
| Pipeline.FindAirport | src/svxmet/src/App_met.jsx:164-167 | no detail exactly when no listed airport has the identifier; otherwise the first airport that has it |
| Pipeline.OnDetail | src/svxmet/src/App_met.jsx:170-190 | without a detail, data and error are cleared, the sequence is "" and nothing is requested; with one, loading is set, the error is cleared, the old data is kept, and exactly one lookup for its identifier is issued; the sequence is the detail's keypad encoding, "" exactly when there is no encodable identifier |
| Pipeline.Resolve | src/svxmet/src/App_met.jsx:164-167 | the detail becomes the selection's first match; list, selection, search and dispatch state are untouched; the sequence stays the detail's; at most one observation lookup is issued, and exactly one (for the new detail, with loading set, the error cleared and the old data kept) when a detail is found in a freshly received list or differs from the previous one; a dropped detail clears data, error and sequence without a request; an unchanged detail changes nothing unless it was found in a fresh list |
| Pipeline.PickAirport | src/svxmet/src/App_met.jsx:164-167 | picking sets the selection and resolves the detail in the current list, leaving list, query, search loading and dispatch state alone; a newly found detail issues exactly its observation lookup (loading set, error cleared, old data kept) and takes its keypad encoding as sequence; a dropped detail clears data, error and sequence without a request; re-picking the same value changes nothing |
| Pipeline.StartSearch | src/svxmet/src/App_met.jsx:143-148 | an empty query clears the list and drops the detail without a request or a change of the loading flag; a dropped detail clears data, error and sequence, and with no detail before, only query and list change; any other new query sets loading, issues exactly one lookup for it and changes nothing else; selection and dispatch state are never touched |
| Pipeline.FinishSearch | src/svxmet/src/App_met.jsx:148-158 | loading ends; an airports array replaces the list and, with exactly one entry, selects it; the detail becomes the selection's first match in the new list, and when there is one its observation lookup is issued again (loading set, error cleared, old data kept) and the sequence is its keypad encoding, otherwise nothing is issued; a detail the new list no longer holds is dropped with data, error and sequence cleared, and with no detail before or after, data, error and sequence stay as they were; query and dispatch state are untouched; any other outcome leaves everything but the loading flag as it was |
| Pipeline.FinishMetar | src/svxmet/src/App_met.jsx:173-183 | loading ends; data is set exactly for an ok non-empty array (its first element, error untouched); otherwise data is cleared and a non-empty error is set: "Keine METAR-Daten gefunden." for an empty or non-array payload, the network message for a response that is not ok |
| Pipeline.HandleSendSms | src/svxmet/src/App_met.jsx:200-208 | without a sequence only the "Keine SMS-Sequenz zum Senden." error is set and nothing is posted; otherwise both indicators are reset, sending is set and the sequence is posted |
| Pipeline.FinishSend | src/svxmet/src/App_met.jsx:203-213 | sending ends; success is set exactly for an ok response and an error exactly for a thrown error or a response that is not ok; started from reset indicators, exactly one of the two is shown |
| Pipeline.StepEffects | src/svxmet/src/App_met.jsx:143-214 | a pick is ignored while a search loads (the list is disabled, line 247) and a click while the button is disabled (line 315); user events only append requests; a reply to an outstanding request of its kind ends that effect's loading or sending flag and removes exactly that request (a search reply may then queue an observation lookup); any other reply changes nothing |
| Pipeline.MapProps | src/svxmet/src/App_met.jsx:282-297 | without a detail, the overview named "Weltkarte" with target (0, 0), zoom 2 and no observation; with one, its position and name at zoom 10 with the observation's values, or all values missing while there is no observation |
| PipelineProofs.StepKeepsConsistent | src/svxmet/src/App_met.jsx:143-214 | every event keeps the invariant: detail and selection agree, sequence and detail agree, dispatch in flight exactly while sending, indicators exclusive, loading flags only with a request outstanding |
| PipelineProofs.ClickKeepsConsistent | src/svxmet/src/App_met.jsx:315 | because the send button is disabled while sending, a click never starts a second dispatch and keeps the invariant |
| PipelineProofs.ReachableConsistent | src/svxmet/src/App_met.jsx:143-214 | after any events in any order, the detail is the selection's first match, the sequence is the detail's, at most one dispatch is outstanding, exactly while sending, and success and error are never shown together |
| PipelineScenarios.PickListed | src/svxmet/src/App_met.jsx:164-175 | with no search loading, picking a listed airport makes it the detail and queues its observation lookup |
| PipelineScenarios.PickWhileLoadingIgnored | src/svxmet/src/App_met.jsx:243-247 | while a search is loading the list is disabled, so a pick changes nothing and queues nothing |
| PipelineScenarios.PickTwice | src/svxmet/src/App_met.jsx:164-175 | picking A then B queues both lookups in order, with B as the detail |
| PipelineScenarios.LateReplyOverwritesNewerSelection | src/svxmet/src/App_met.jsx:170-184 | if B's observation arrives before A's, A's observation is shown while B is selected |
| PipelineScenarios.InOrderRepliesShowNewerSelection | src/svxmet/src/App_met.jsx:170-184 | if the replies arrive in request order, B's observation is shown |
| PipelineScenarios.FirstReplyEndsLoading | src/svxmet/src/App_met.jsx:172-182 | the first reply ends loading while B's lookup is still outstanding; a failed reply for A and then data for B show B's data together with A's error |
| PipelineScenarios.ObservationWithoutSelection | src/svxmet/src/App_met.jsx:170-182 | clearing the query while A's lookup is outstanding clears the detail and data, but A's reply is still written, so an observation is shown with no selection |
| PipelineScenarios.DisabledClickIgnored | src/svxmet/src/App_met.jsx:315 | a click on the disabled button changes nothing and posts nothing |
| PipelineScenarios.SendRoundTrip | src/svxmet/src/App_met.jsx:200-214 | a click on the enabled button posts the sequence; its reply ends sending with exactly one of success and error shown, success exactly for an ok response, and no dispatch outstanding |
| PipelineScenarios.OverviewHasNoMarker | src/svxmet/src/App_met.jsx:296-297 | without a detail the map shows (0, 0) at zoom 2 and no marker |
| PipelineScenarios.DetailMarker | src/svxmet/src/App_met.jsx:282-295 | with a detail at usable coordinates whose name is not "Weltkarte", the single marker sits at the detail's position at zoom 10 and always has a tooltip: placeholders and a 90-degree arrow without an observation, or cells that read back as the observation |

## Left out

- Theme persistence (`App_met.jsx:120-126`): it only reads and writes browser storage and a document attribute. Any stored string is accepted, and `default` is used when nothing, or an empty string, is stored.
- The backend version fetch (`App_met.jsx:193-198`) and all JSX rendering, HTML markup, CSS, icons, tile URLs and popup text. The marker's caption is modelled; the coordinate text of its popup is not.
- `opt/svxmet/send_dtmf.py` (FIFO writes and OS error codes), `src/svxmet/src/MapView.jsx` (unused by the entry point), `main.jsx` and `vite.config.js`: these are I/O and configuration, not part of this model.
- The `console.error` logging on a failed encoder (`App_met.jsx:112`) and on a failed airport lookup (`App_met.jsx:155`): it writes to the browser console and changes no state.
- Real concurrency and network I/O. Each request is a start/completion pair. A completion is an event taking one outstanding request of its kind, in any order. The map library's internals are replaced by the `Surface` replay.
- React rendering details. The model runs one map update per application state. React may run the effect several times for one event, but `MapSection.UpdateIdempotent` and `MapSection.UpdateForgetsHistory` show that the widget ends up the same. Object identity of the detail record is modelled as follows: a record found in a freshly received list always counts as a change, and otherwise value equality decides.
- `MapSection.Update`: coordinates and zoom are given as the result of `Number()`: NaN or an exact real. Floating-point rounding, infinities and the string-to-number conversion are not modelled. The `!mapEl.current` test is the `attached` parameter.
- `Tooltips.Rotation`: wind direction is a non-negative whole number of degrees. JavaScript `%` on negative values and non-numeric directions such as `VRB` (which `Number(wdir) || 0` turns into 0) are not modelled.
- `Tooltips.BuildTooltip`: temperature, dew point, wind speed and visibility are kept as the text they display. Their JSON types are not modelled.
- `Keypad.SmsSequence`: the model's length and upper-casing agree with JavaScript only for characters of the Basic Multilingual Plane, and upper-casing is ASCII only. A Dafny `char` is a Unicode scalar value, so a character outside that plane counts once here but twice in JavaScript's `length` ("EDD😀" has length 4 here and 5 there, where the source returns ""). Non-ASCII characters whose JavaScript upper case is an ASCII letter (`ı`, `ſ`) or that change the length (`ß` becoming `SS`) are not modelled either. The `try`/`catch` is not modelled because nothing in the body can throw on a string.
- Airport records are assumed to carry a string `icao`, and observation arrays are assumed to hold observation objects (a `null` element is not modelled).

=== FILE: Keypad.dfy ===
/** The identifier-to-keypad encoder (`icaoToSmsSequence`): a 4-character
    airport identifier becomes the multi-tap telephone keypad presses that
    spell it, runs joined by '*' and terminated by '#'. */
module Keypad {
  import opened Values
  import opened Strings

  const SEPARATOR: char := '*'
  const TERMINATOR: char := '#'

  /** The letters on keys 2 to 9 of a telephone keypad, in press order. */
  const KEY_GROUPS: seq<string> := ["ABC", "DEF", "GHI", "JKL", "MNO", "PQRS", "TUV", "WXYZ"]

  /** The digit printed on the key holding group `g`. */
  function KeyDigit(g: nat): char
    requires g < 8
  {
    ('2' as int + g) as char
  }

  /** `n` copies of `d`. */
  function Repeat(d: char, n: nat): (r: string)
    ensures |r| == n
    ensures forall i :: 0 <= i < n ==> r[i] == d
  {
    seq(n, _ => d)
  }

  /** String.prototype.toUpperCase on one character, for ASCII input. */
  function UpperChar(c: char): char
  {
    if 'a' <= c <= 'z' then (c as int - 32) as char else c
  }

  function Upper(s: string): (u: string)
    ensures |u| == |s|
    ensures forall i :: 0 <= i < |s| ==> u[i] == UpperChar(s[i])
  {
    seq(|s|, i requires 0 <= i < |s| => UpperChar(s[i]))
  }

  predicate IsUpperLetter(c: char) { 'A' <= c <= 'Z' }

  /** A letter in either case. */
  predicate IsLetter(c: char) { IsUpperLetter(UpperChar(c)) }

  /** The encoder's lookup table, entry by entry; characters other than A-Z
      have no entry. */
  function TableEntry(c: char): Option<string>
  {
    match c
    case 'A' => Some("2")    case 'B' => Some("22")   case 'C' => Some("222")
    case 'D' => Some("3")    case 'E' => Some("33")   case 'F' => Some("333")
    case 'G' => Some("4")    case 'H' => Some("44")   case 'I' => Some("444")
    case 'J' => Some("5")    case 'K' => Some("55")   case 'L' => Some("555")
    case 'M' => Some("6")    case 'N' => Some("66")   case 'O' => Some("666")
    case 'P' => Some("7")    case 'Q' => Some("77")   case 'R' => Some("777")
    case 'S' => Some("7777")
    case 'T' => Some("8")    case 'U' => Some("88")   case 'V' => Some("888")
    case 'W' => Some("9")    case 'X' => Some("99")   case 'Y' => Some("999")
    case 'Z' => Some("9999")
    case _ => None
  }

  /** `map[c] || ''`: a character without a table entry yields an empty run. */
  function Run(c: char): string
  {
    TableEntry(c).GetOr("")
  }

  /** `u.split('').map(c => map[c] || '')`. */
  function Runs(u: string): (runs: seq<string>)
    ensures |runs| == |u|
  {
    seq(|u|, i requires 0 <= i < |u| => Run(u[i]))
  }

  /** The guard of the encoder: a present string of exactly four characters
      (the empty string is falsy and fails the guard as well). */
  predicate Encodable(icao: Option<string>)
  {
    icao.Some? && |icao.value| == 4
  }

  /** `icaoToSmsSequence`: "" when the guard fails; otherwise the runs of the
      upper-cased identifier joined by '*', with '#' appended unless the joined
      text already ends in '#'. */
  function SmsSequence(icao: Option<string>): (r: string)
    ensures r == "" <==> !Encodable(icao)
    ensures r != "" ==> r[|r| - 1] == TERMINATOR && Count(r, TERMINATOR) == 1
    ensures r != "" ==> Count(r, SEPARATOR) == 3
  {
    if icao.None? || icao.value == "" || |icao.value| != 4 then ""
    else
      var runs := Runs(Upper(icao.value));
      var sequence := Join(runs, SEPARATOR);
      RunsAreDigits(runs, Upper(icao.value));
      JoinedRuns(runs);
      CountZero(sequence, TERMINATOR);
      if |sequence| > 0 && sequence[|sequence| - 1] == TERMINATOR then sequence
      else
        CountAppend(sequence, [TERMINATOR], TERMINATOR);
        CountAppend(sequence, [TERMINATOR], SEPARATOR);
        sequence + [TERMINATOR]
  }

  // ---------------------------------------------------------------------------
  // Facts about runs and their join

  /** A run of key digits: no separator and no terminator can occur in it. */
  predicate DigitRun(r: string)
  {
    forall i :: 0 <= i < |r| ==> '2' <= r[i] <= '9'
  }

  lemma RunIsDigits(c: char)
    ensures DigitRun(Run(c))
  {
  }

  lemma RunsAreDigits(runs: seq<string>, u: string)
    requires runs == Runs(u)
    ensures forall i :: 0 <= i < |runs| ==> DigitRun(runs[i])
  {
    forall i | 0 <= i < |runs| ensures DigitRun(runs[i]) {
      RunIsDigits(u[i]);
    }
  }

  /** Joining `n` digit runs yields no terminator and exactly `n - 1` separators. */
  lemma {:induction false} JoinedRuns(runs: seq<string>)
    requires |runs| >= 1
    requires forall i :: 0 <= i < |runs| ==> DigitRun(runs[i])
    ensures Count(Join(runs, SEPARATOR), TERMINATOR) == 0
    ensures Count(Join(runs, SEPARATOR), SEPARATOR) == |runs| - 1
  {
    assert SEPARATOR !in runs[0] && TERMINATOR !in runs[0];
    CountAbsent(runs[0], SEPARATOR);
    CountAbsent(runs[0], TERMINATOR);
    if |runs| > 1 {
      var rest := Join(runs[1..], SEPARATOR);
      JoinedRuns(runs[1..]);
      CountAppend(runs[0] + [SEPARATOR], rest, SEPARATOR);
      CountAppend(runs[0], [SEPARATOR], SEPARATOR);
      CountAppend(runs[0] + [SEPARATOR], rest, TERMINATOR);
      CountAppend(runs[0], [SEPARATOR], TERMINATOR);
    }
  }

  lemma {:induction false} CountZero(s: string, c: char)
    requires Count(s, c) == 0
    ensures c !in s
  {
    if |s| > 0 {
      CountZero(s[1..], c);
      assert s == [s[0]] + s[1..];
    }
  }

  // ---------------------------------------------------------------------------
  // The keypad layout as an independent reference for the table

  /** Key group and press count minus one of an upper-case letter, read off
      the keypad layout: three letters per key except keys 7 and 9, which
      carry four. */
  function Locate(c: char): (gp: (nat, nat))
    requires IsUpperLetter(c)
    ensures gp.0 < 8 && gp.1 < |KEY_GROUPS[gp.0]| && KEY_GROUPS[gp.0][gp.1] == c
  {
    var o := c as int - 'A' as int;
    if o < 15 then (o / 3, o % 3)
    else if o < 19 then (5, o - 15)
    else if o < 22 then (6, o - 19)
    else (7, o - 22)
  }

  /** The multi-tap presses that type `c` on a keypad: its key's digit, once
      per position in the key's group; nothing for a character that is not a
      letter. */
  function KeypadRun(c: char): string
  {
    if IsLetter(c) then
      var gp := Locate(UpperChar(c));
      Repeat(KeyDigit(gp.0), gp.1 + 1)
    else ""
  }

  /** Every entry of the table is the keypad's multi-tap run for its letter. */
  lemma TableEntryFollowsKeypad(u: char)
    requires IsUpperLetter(u)
    ensures TableEntry(u) == Some(Repeat(KeyDigit(Locate(u).0), Locate(u).1 + 1))
  {
    var gp := Locate(u);
    var d := KeyDigit(gp.0);
    var v := TableEntry(u).value;
    assert TableEntry(u).Some? && |v| == gp.1 + 1 && forall i :: 0 <= i < |v| ==> v[i] == d by {
      var o := u as int - 'A' as int;
      if o < 3 {} else if o < 6 {} else if o < 9 {} else if o < 12 {} else if o < 15 {}
      else if o < 19 {} else if o < 22 {} else {}
    }
    assert v == Repeat(d, gp.1 + 1);
  }

  /** Looking up an upper-cased character in the table agrees with the keypad. */
  lemma TableFollowsKeypad(c: char)
    ensures Run(UpperChar(c)) == KeypadRun(c)
  {
    if IsLetter(c) {
      TableEntryFollowsKeypad(UpperChar(c));
    }
  }

  /** A letter takes one to four presses, four exactly for S and Z. */
  lemma RunLength(c: char)
    requires IsLetter(c)
    ensures 1 <= |Run(UpperChar(c))| <= 4
    ensures |Run(UpperChar(c))| == 4 <==> UpperChar(c) == 'S' || UpperChar(c) == 'Z'
  {
    TableFollowsKeypad(c);
  }

  /** The encoder on a four-character input, spelled out against the keypad:
      the four multi-tap runs (empty for non-letters, the same for either
      case), separated by '*', then a single '#'. */
  lemma SmsSequenceSpelled(s: string)
    requires |s| == 4
    ensures SmsSequence(Some(s))
         == KeypadRun(s[0]) + [SEPARATOR] + KeypadRun(s[1]) + [SEPARATOR]
          + KeypadRun(s[2]) + [SEPARATOR] + KeypadRun(s[3]) + [TERMINATOR]
  {
    var runs := Runs(Upper(s));
    EncodedForm(s);
    forall i | 0 <= i < 4 ensures runs[i] == KeypadRun(s[i]) {
      TableFollowsKeypad(s[i]);
    }
    JoinFour(runs, SEPARATOR);
  }

  /** On a guarded input the terminator is always appended: the joined runs
      never end in '#'. */
  lemma EncodedForm(s: string)
    requires |s| == 4
    ensures SmsSequence(Some(s)) == Join(Runs(Upper(s)), SEPARATOR) + [TERMINATOR]
  {
    var runs := Runs(Upper(s));
    RunsAreDigits(runs, Upper(s));
    JoinedRuns(runs);
    CountZero(Join(runs, SEPARATOR), TERMINATOR);
  }

  // ---------------------------------------------------------------------------
  // Decoding: the inverse of the encoder on four-letter identifiers

  /** The letter a run of presses types, if any: the run repeats one key digit
      no more often than that key has letters. */
  function LetterOfRun(r: string): Option<char>
  {
    if |r| == 0 || !('2' <= r[0] <= '9') then None
    else
      var g := r[0] as int - '2' as int;
      if |r| <= |KEY_GROUPS[g]| && r == Repeat(r[0], |r|) then Some(KEY_GROUPS[g][|r| - 1]) else None
  }

  /** Reads a keypad sequence back into the upper-case identifier it spells:
      four runs separated by '*' and terminated by '#', each typing a letter. */
  function Decode(d: string): Option<string>
  {
    if |d| == 0 || d[|d| - 1] != TERMINATOR then None
    else
      var parts := Split(d[..|d| - 1], SEPARATOR);
      if |parts| != 4 then None
      else
        var letters := seq(4, i requires 0 <= i < 4 => LetterOfRun(parts[i]));
        if forall i :: 0 <= i < 4 ==> letters[i].Some?
        then Some(seq(4, i requires 0 <= i < 4 => letters[i].value))
        else None
  }

  /** Each position of the keypad holds the letter Locate places there. */
  lemma LocateGroupLetter(g: nat, p: nat)
    requires g < 8 && p < |KEY_GROUPS[g]|
    ensures IsUpperLetter(KEY_GROUPS[g][p]) && Locate(KEY_GROUPS[g][p]) == (g, p)
  {
    if g == 0 {} else if g == 1 {} else if g == 2 {} else if g == 3 {}
    else if g == 4 {} else if g == 5 {} else if g == 6 {} else {}
  }

  lemma LetterOfRunInverts(u: char)
    requires IsUpperLetter(u)
    ensures LetterOfRun(Run(u)) == Some(u)
  {
    TableEntryFollowsKeypad(u);
  }

  lemma RunOfLetter(r: string, c: char)
    requires LetterOfRun(r) == Some(c)
    ensures IsUpperLetter(c) && Run(c) == r
  {
    var g := r[0] as int - '2' as int;
    LocateGroupLetter(g, |r| - 1);
    TableEntryFollowsKeypad(c);
    assert KeyDigit(g) == r[0];
  }

  /** Round trip: decoding the sequence of a four-letter identifier yields the
      identifier in upper case. */
  lemma DecodeSmsSequence(s: string)
    requires |s| == 4 && forall i :: 0 <= i < 4 ==> IsLetter(s[i])
    ensures Decode(SmsSequence(Some(s))) == Some(Upper(s))
  {
    var u := Upper(s);
    var runs := Runs(u);
    var d := SmsSequence(Some(s));
    EncodedForm(s);
    RunsAreDigits(runs, u);
    assert d[..|d| - 1] == Join(runs, SEPARATOR);
    forall i | 0 <= i < 4 ensures SEPARATOR !in runs[i] && LetterOfRun(runs[i]) == Some(u[i]) {
      assert DigitRun(runs[i]);
      LetterOfRunInverts(u[i]);
    }
    SplitJoin(runs, SEPARATOR);
    var parts := Split(d[..|d| - 1], SEPARATOR);
    assert parts == runs;
    var letters := seq(4, i requires 0 <= i < 4 => LetterOfRun(parts[i]));
    assert forall i :: 0 <= i < 4 ==> letters[i] == Some(u[i]);
    assert seq(4, i requires 0 <= i < 4 => letters[i].value) == u;
  }

  /** What an accepted sequence consists of: a body and the terminator, the
      body splitting into four runs that type the decoded letters. */
  lemma DecodedParts(d: string, x: string)
    requires Decode(d) == Some(x)
    ensures |d| > 0 && d[|d| - 1] == TERMINATOR
    ensures var parts := Split(d[..|d| - 1], SEPARATOR);
            |parts| == 4 && |x| == 4 && forall i :: 0 <= i < 4 ==> LetterOfRun(parts[i]) == Some(x[i])
  {
  }

  /** Round trip the other way: every sequence the decoder accepts is exactly
      the encoder's output for the identifier it decodes to. */
  lemma SmsSequenceOfDecoded(d: string, x: string)
    requires Decode(d) == Some(x)
    ensures |x| == 4 && forall i :: 0 <= i < 4 ==> IsUpperLetter(x[i])
    ensures SmsSequence(Some(x)) == d
  {
    DecodedParts(d, x);
    var body := d[..|d| - 1];
    var parts := Split(body, SEPARATOR);
    forall i | 0 <= i < 4 ensures IsUpperLetter(x[i]) && Run(x[i]) == parts[i] {
      RunOfLetter(parts[i], x[i]);
    }
    assert Upper(x) == x;
    assert Runs(x) == parts;
    JoinSplit(body, SEPARATOR);
    EncodedForm(x);
    assert body + [TERMINATOR] == d;
  }

  /** Distinct four-letter identifiers (ignoring case) give distinct sequences. */
  lemma SmsSequenceInjective(s: string, t: string)
    requires |s| == 4 && forall i :: 0 <= i < 4 ==> IsLetter(s[i])
    requires |t| == 4 && forall i :: 0 <= i < 4 ==> IsLetter(t[i])
    requires SmsSequence(Some(s)) == SmsSequence(Some(t))
    ensures Upper(s) == Upper(t)
  {
    DecodeSmsSequence(s);
    DecodeSmsSequence(t);
  }

  // ---------------------------------------------------------------------------
  // Worked values

  lemma EddlExample()
    ensures SmsSequence(Some("EDDL")) == "33*3*3*555#"
    ensures SmsSequence(Some("eddl")) == "33*3*3*555#"
  {
    EddlUpper();
    EddlLower();
  }

  lemma EddlUpper()
    ensures SmsSequence(Some("EDDL")) == "33*3*3*555#"
  {
    TableFollowsKeypad('E'); TableFollowsKeypad('D'); TableFollowsKeypad('L');
    assert KeypadRun('E') == "33" && KeypadRun('D') == "3" && KeypadRun('L') == "555";
    SmsSequenceSpelled("EDDL");
  }

  lemma EddlLower()
    ensures SmsSequence(Some("eddl")) == "33*3*3*555#"
  {
    EddlUpper();
    assert Upper("eddl") == "EDDL" == Upper("EDDL");
    EncodedForm("eddl");
    EncodedForm("EDDL");
  }

  /** A non-letter inside a four-character input leaves an empty run rather
      than making the whole result empty. */
  lemma NonLetterLeavesEmptyRun()
    ensures SmsSequence(Some("ED1L")) == "33*3**555#"
  {
    TableFollowsKeypad('E'); TableFollowsKeypad('D'); TableFollowsKeypad('L'); TableFollowsKeypad('1');
    assert KeypadRun('E') == "33" && KeypadRun('D') == "3" && KeypadRun('L') == "555" && KeypadRun('1') == "";
    SmsSequenceSpelled("ED1L");
  }

  /** A sequence with an empty run does not decode. */
  lemma EmptyRunDoesNotDecode()
    ensures Decode("33*3**555#") == None
  {
    var d := "33*3**555#";
    var body := d[..|d| - 1];
    assert body == "33" + [SEPARATOR] + ("3" + [SEPARATOR] + ("" + [SEPARATOR] + "555"));
    SplitFree("555", SEPARATOR);
    SplitPrefix("", SEPARATOR, "555");
    SplitPrefix("3", SEPARATOR, "" + [SEPARATOR] + "555");
    SplitPrefix("33", SEPARATOR, "3" + [SEPARATOR] + ("" + [SEPARATOR] + "555"));
    var parts := Split(body, SEPARATOR);
    assert parts == ["33", "3", "", "555"];
    assert |d| > 0 && d[|d| - 1] == TERMINATOR && |parts| == 4;
    var letters := seq(4, i requires 0 <= i < 4 => LetterOfRun(parts[i]));
    assert letters[2] == LetterOfRun("") == None;
  }

  /** So no identifier of four letters is sent as that sequence. */
  lemma NoIdentifierHasEmptyRun(s: string)
    requires |s| == 4 && forall i :: 0 <= i < 4 ==> IsLetter(s[i])
    ensures SmsSequence(Some(s)) != "33*3**555#"
  {
    DecodeSmsSequence(s);
    EmptyRunDoesNotDecode();
  }

  /** The guard: wrong length, the empty string and a missing value all give "". */
  lemma GuardRejects()
    ensures SmsSequence(Some("EDDLX")) == "" && SmsSequence(Some("")) == "" && SmsSequence(None) == ""
  {
  }
}

=== FILE: MapSection.dfy ===
/** The map component's update effect (`MapSection`): one map widget per
    surface, created on the first usable update and afterwards only
    re-centred, and at most one marker, carrying the observation tooltip. */
module MapSection {
  import opened Values
  import opened Tooltips

  /** The display name of the world overview, which never gets a marker. */
  const WORLD_NAME: string := "Weltkarte"
  const DEFAULT_ZOOM: real := 10.0
  /** The marker caption used when no name is given. */
  const DEFAULT_CAPTION: string := "Position"

  datatype View = View(lat: real, lon: real, zoom: real)

  datatype Marker = Marker(lat: real, lon: real, caption: string, tooltip: Option<Tooltip>)

  /** The component's properties. Coordinates and zoom are what Number()
      makes of them; None stands for null or undefined. */
  datatype Props = Props(
    lat: Option<JsNumber>,
    lon: Option<JsNumber>,
    name: Option<string>,
    zoom: Option<JsNumber>,
    meteo: Option<Observation>)

  /** What the component keeps between renders: the map widget, if created,
      with its current view, and the marker it placed, if any. */
  datatype Widget = Widget(mapView: Option<View>, marker: Option<Marker>)

  const NO_WIDGET: Widget := Widget(None, None)

  /** The calls the effect makes on the mapping library, in order. */
  datatype Call =
    | CreateMap
    | SetView(view: View)
    | AddTileLayer
    | RemoveMarker(marker: Marker)
    | AddMarker(marker: Marker)

  /** `Number(zoom) || 10`; a missing zoom takes the default 10 first. */
  function EffectiveZoom(zoom: Option<JsNumber>): (z: real)
    ensures z != 0.0
    ensures zoom.None? || zoom.value.NaN? || zoom.value.value == 0.0 ==> z == DEFAULT_ZOOM
    ensures zoom.Some? && zoom.value.Finite? && zoom.value.value != 0.0 ==> z == zoom.value.value
  {
    match zoom
    case None => DEFAULT_ZOOM
    case Some(NaN) => DEFAULT_ZOOM
    case Some(Finite(v)) => if v == 0.0 then DEFAULT_ZOOM else v
  }

  /** The position the effect works with: none when the surface is not
      attached, a coordinate is null or undefined, or one is NaN. */
  function Target(attached: bool, p: Props): (t: Option<(real, real)>)
  {
    if p.lat.None? || p.lon.None? || !attached then None
    else if p.lat.value.NaN? || p.lon.value.NaN? then None
    else Some((p.lat.value.value, p.lon.value.value))
  }

  /** One run of the update effect: the widget afterwards and the calls made. */
  function Update(w: Widget, attached: bool, p: Props): (r: (Widget, seq<Call>))
    ensures Target(attached, p).None? ==> r == (w, [])
    ensures Target(attached, p).Some? ==>
              var t := Target(attached, p).value;
              && r.0.mapView == Some(View(t.0, t.1, EffectiveZoom(p.zoom)))
              && (r.0.marker.None? <==> p.name == Some(WORLD_NAME))
              && (r.0.marker.Some? ==>
                    (&& r.0.marker.value.lat == t.0 && r.0.marker.value.lon == t.1
                     && r.0.marker.value.tooltip == BuildTooltip(p.meteo)))
    ensures CreateMap in r.1 <==> w.mapView.None? && Target(attached, p).Some?
  {
    match Target(attached, p)
    case None => (w, [])
    case Some(t) =>
      var view := View(t.0, t.1, EffectiveZoom(p.zoom));
      var mapCalls := if w.mapView.None? then [CreateMap, SetView(view), AddTileLayer] else [SetView(view)];
      var removal := if w.marker.Some? then [RemoveMarker(w.marker.value)] else [];
      if p.name != Some(WORLD_NAME) then
        var m := Marker(t.0, t.1, p.name.GetOr(DEFAULT_CAPTION), BuildTooltip(p.meteo));
        (Widget(Some(view), Some(m)), mapCalls + removal + [AddMarker(m)])
      else
        (Widget(Some(view), None), mapCalls + removal)
  }

  /** Rendering the same properties again changes nothing further. */
  lemma UpdateIdempotent(w: Widget, attached: bool, p: Props)
    ensures Update(Update(w, attached, p).0, attached, p).0 == Update(w, attached, p).0
  {
  }

  /** Once the widget exists, the widget an update leaves behind depends on
      the properties alone. */
  lemma UpdateForgetsHistory(w: Widget, w': Widget, attached: bool, p: Props)
    requires w.mapView.Some? && w'.mapView.Some?
    requires Target(attached, p).Some?
    ensures Update(w, attached, p).0 == Update(w', attached, p).0
  {
  }

  /** A later update re-centres the existing widget and creates nothing. */
  lemma LaterUpdateOnlySetsView(w: Widget, attached: bool, p: Props)
    requires w.mapView.Some? && Target(attached, p).Some?
    ensures var r := Update(w, attached, p);
            && r.1[0] == SetView(r.0.mapView.value)
            && CreateMap !in r.1 && AddTileLayer !in r.1
  {
  }

  /** A previous marker is removed before the new one is added. */
  lemma MarkerReplaced(w: Widget, attached: bool, p: Props)
    requires w.marker.Some? && Target(attached, p).Some? && p.name != Some(WORLD_NAME)
    ensures var r := Update(w, attached, p);
            |r.1| >= 2 && r.1[|r.1| - 2..] == [RemoveMarker(w.marker.value), AddMarker(r.0.marker.value)]
  {
  }

  // ---------------------------------------------------------------------------
  // The drawn surface: what the library holds after the calls

  /** How many maps were created on the surface, how many tile layers were
      added, the current view, and the markers drawn. */
  datatype Surface = Surface(maps: nat, tileLayers: nat, view: Option<View>, markers: seq<Marker>)

  const BLANK: Surface := Surface(0, 0, None, [])

  /** `markers` without its first occurrence of `m`. */
  function RemoveFirst(markers: seq<Marker>, m: Marker): seq<Marker>
  {
    if |markers| == 0 then []
    else if markers[0] == m then markers[1..]
    else [markers[0]] + RemoveFirst(markers[1..], m)
  }

  function Perform(s: Surface, c: Call): Surface
  {
    match c
    case CreateMap => s.(maps := s.maps + 1)
    case SetView(v) => s.(view := Some(v))
    case AddTileLayer => s.(tileLayers := s.tileLayers + 1)
    case RemoveMarker(m) => s.(markers := RemoveFirst(s.markers, m))
    case AddMarker(m) => s.(markers := s.markers + [m])
  }

  function PerformAll(s: Surface, calls: seq<Call>): Surface
    decreases |calls|
  {
    if |calls| == 0 then s else PerformAll(Perform(s, calls[0]), calls[1..])
  }

  lemma {:induction false} PerformAllAppend(s: Surface, a: seq<Call>, b: seq<Call>)
    ensures PerformAll(s, a + b) == PerformAll(PerformAll(s, a), b)
    decreases |a|
  {
    if |a| > 0 {
      assert (a + b)[1..] == a[1..] + b;
      PerformAllAppend(Perform(s, a[0]), a[1..], b);
    } else {
      assert a + b == b;
    }
  }

  /** The component's bookkeeping matches the surface: one map and one tile
      layer once the widget exists, the same view, and exactly the marker it
      remembers drawn. */
  predicate Mirrors(w: Widget, s: Surface)
  {
    && s.maps == (if w.mapView.Some? then 1 else 0)
    && s.tileLayers == s.maps
    && s.view == w.mapView
    && s.markers == (if w.marker.Some? then [w.marker.value] else [])
  }

  lemma UpdateKeepsMirror(w: Widget, s: Surface, attached: bool, p: Props)
    requires Mirrors(w, s)
    ensures var r := Update(w, attached, p); Mirrors(r.0, PerformAll(s, r.1))
  {
    var r := Update(w, attached, p);
    if Target(attached, p).Some? {
      var t := Target(attached, p).value;
      var view := View(t.0, t.1, EffectiveZoom(p.zoom));
      var mapCalls := if w.mapView.None? then [CreateMap, SetView(view), AddTileLayer] else [SetView(view)];
      var removal := if w.marker.Some? then [RemoveMarker(w.marker.value)] else [];
      var s1 := PerformAll(s, mapCalls);
      var s2 := PerformAll(s1, removal);
      assert s1 == s.(maps := 1, tileLayers := 1, view := Some(view)) by {
        if w.mapView.None? {
          var a := Perform(s, CreateMap);
          var b := Perform(a, SetView(view));
          var c := Perform(b, AddTileLayer);
          assert [AddTileLayer][1..] == [];
          assert PerformAll(b, [AddTileLayer]) == c;
          assert [SetView(view), AddTileLayer][1..] == [AddTileLayer];
          assert PerformAll(a, [SetView(view), AddTileLayer]) == c;
          assert mapCalls[1..] == [SetView(view), AddTileLayer];
        } else {
          assert mapCalls[1..] == [];
          assert PerformAll(s, mapCalls) == Perform(s, SetView(view));
        }
      }
      assert s2 == s1.(markers := []) by {
        if w.marker.Some? {
          assert removal[1..] == [];
          assert PerformAll(s1, removal) == Perform(s1, removal[0]);
          assert RemoveFirst([w.marker.value], w.marker.value) == [];
        }
      }
      PerformAllAppend(s, mapCalls, removal);
      if p.name != Some(WORLD_NAME) {
        PerformAllAppend(s, mapCalls + removal, [AddMarker(r.0.marker.value)]);
      }
    }
  }

  // ---------------------------------------------------------------------------
  // A sequence of renders

  datatype Render = Render(attached: bool, props: Props)

  /** Running the effect once per render, in order: the final widget and all
      calls made. */
  function Replay(w: Widget, renders: seq<Render>): (r: (Widget, seq<Call>))
    decreases |renders|
  {
    if |renders| == 0 then (w, [])
    else
      var first := Update(w, renders[0].attached, renders[0].props);
      var rest := Replay(first.0, renders[1..]);
      (rest.0, first.1 + rest.1)
  }

  predicate Usable(r: Render) { Target(r.attached, r.props).Some? }

  lemma {:induction false} ReplayKeepsMirror(w: Widget, s: Surface, renders: seq<Render>)
    requires Mirrors(w, s)
    ensures var r := Replay(w, renders); Mirrors(r.0, PerformAll(s, r.1))
    decreases |renders|
  {
    if |renders| > 0 {
      var first := Update(w, renders[0].attached, renders[0].props);
      UpdateKeepsMirror(w, s, renders[0].attached, renders[0].props);
      var s1 := PerformAll(s, first.1);
      ReplayKeepsMirror(first.0, s1, renders[1..]);
      PerformAllAppend(s, first.1, Replay(first.0, renders[1..]).1);
    }
  }

  /** The widget exists after a sequence of renders exactly when it existed
      before or one of the renders was usable. */
  lemma {:induction false} ReplayCreatesWidget(w: Widget, renders: seq<Render>)
    ensures Replay(w, renders).0.mapView.Some? <==>
              w.mapView.Some? || exists i :: 0 <= i < |renders| && Usable(renders[i])
    decreases |renders|
  {
    if |renders| > 0 {
      var first := Update(w, renders[0].attached, renders[0].props);
      ReplayCreatesWidget(first.0, renders[1..]);
      if exists i :: 0 <= i < |renders| && Usable(renders[i]) {
        var i :| 0 <= i < |renders| && Usable(renders[i]);
        if i > 0 { assert Usable(renders[1..][i - 1]); }
      }
      if exists i :: 0 <= i < |renders[1..]| && Usable(renders[1..][i]) {
        var i :| 0 <= i < |renders[1..]| && Usable(renders[1..][i]);
        assert Usable(renders[i + 1]);
      }
    }
  }

  /** Whatever the renders, the surface receives at most one map (exactly
      one once some render was usable), one tile layer per map, and at most
      one marker, which is the one the component remembers. */
  lemma SingleMapAndMarker(renders: seq<Render>)
    ensures var r := Replay(NO_WIDGET, renders);
            var s := PerformAll(BLANK, r.1);
            && s.maps <= 1
            && (s.maps == 1 <==> exists i :: 0 <= i < |renders| && Usable(renders[i]))
            && s.tileLayers == s.maps
            && |s.markers| <= 1
            && s.markers == (if r.0.marker.Some? then [r.0.marker.value] else [])
  {
    ReplayKeepsMirror(NO_WIDGET, BLANK, renders);
    ReplayCreatesWidget(NO_WIDGET, renders);
  }
}

=== FILE: Pipeline.dfy ===
/** The application's data pipeline (`App`): airport search, selection of a
    detail record, observation (METAR) retrieval, derivation of the keypad
    sequence, and dispatch of that sequence. Every asynchronous effect is a
    start transition, which may issue a request, and a later completion
    transition that receives the request's outcome. Completions carry no
    generation tag: whichever reply arrives last writes its result. */
module Pipeline {
  import opened Values
  import opened Tooltips
  import Keypad
  import MapSection

  const METAR_NETWORK_ERROR: string := "Netzwerkfehler beim Abrufen der METAR-Daten"
  const METAR_NO_DATA: string := "Keine METAR-Daten gefunden."
  const METAR_FALLBACK: string := "Fehler beim Laden der METAR-Daten."
  const SEND_NO_SEQUENCE: string := "Keine SMS-Sequenz zum Senden."
  const SEND_NETWORK_ERROR: string := "---Netzwerkfehler beim Senden der Daten"
  const SEND_FALLBACK: string := "Fehler beim Senden der Daten."

  /** An airport as the directory service returns it. */
  datatype Airport = Airport(
    icao: string,
    iata: Option<string>,
    countryCode: Option<string>,
    regionName: Option<string>,
    name: Option<string>,
    latitude: Option<JsNumber>,
    longitude: Option<JsNumber>,
    metarAvailable: bool)

  /** A response body: JSON that failed to parse (with the parser's message)
      or the parsed payload. */
  datatype Body<P> = Unparseable(message: string) | Parsed(payload: P)

  /** How a request ended: the fetch threw (with the error's message), or a
      response arrived with its `ok` flag and body. */
  datatype Outcome<P> = Threw(message: string) | Responded(ok: bool, body: Body<P>)

  /** The directory payload: an `airports` array, or anything else. */
  datatype AirportsBody = AirportList(airports: seq<Airport>) | NoAirportList

  /** The observation payload: an array of observations, or anything else. */
  datatype MetarBody = MetarList(observations: seq<Observation>) | NoMetarList

  /** The component's state variables. */
  datatype AppState = AppState(
    query: string,
    airports: seq<Airport>,
    airportLoading: bool,
    selected: string,
    detail: Option<Airport>,
    metarData: Option<Observation>,
    metarLoading: bool,
    metarError: Option<string>,
    smsSequence: string,
    sending: bool,
    sendError: Option<string>,
    sendSuccess: bool)

  /** The state once the mount effects have run: the empty query cleared the
      list, nothing is selected, and the detail effects cleared observation
      and sequence. */
  const INITIAL: AppState := AppState("", [], false, "", None, None, false, None, "", false, None, false)

  /** The requests the pipeline issues. */
  datatype Request = AirportLookup(query: string) | MetarLookup(icao: string) | DtmfPost(digits: string)

  /** A new state and the requests issued on the way to it. */
  datatype Transition = Transition(state: AppState, issued: seq<Request>)

  /** `e.message || fallback`. */
  function ErrorText(message: string, fallback: string): (r: string)
    requires fallback != ""
    ensures r != ""
    ensures message != "" ==> r == message
    ensures message == "" ==> r == fallback
  {
    if message != "" then message else fallback
  }

  // ---------------------------------------------------------------------------
  // Selection

  /** Index of the first airport with identifier `icao`, or the list's length. */
  function FirstMatch(airports: seq<Airport>, icao: string): (k: nat)
    ensures k <= |airports|
    ensures forall j :: 0 <= j < k ==> airports[j].icao != icao
    ensures k < |airports| ==> airports[k].icao == icao
  {
    if |airports| == 0 then 0
    else if airports[0].icao == icao then 0
    else 1 + FirstMatch(airports[1..], icao)
  }

  /** `airports.find(a => a.icao === icao) ?? null`: the first airport with
      that identifier, or nothing when none has it. */
  function FindAirport(airports: seq<Airport>, icao: string): (r: Option<Airport>)
    ensures r.None? <==> forall i :: 0 <= i < |airports| ==> airports[i].icao != icao
    ensures r.Some? ==> exists k :: 0 <= k < |airports| && airports[k] == r.value && r.value.icao == icao
                                    && forall j :: 0 <= j < k ==> airports[j].icao != icao
  {
    var k := FirstMatch(airports, icao);
    if k < |airports| then Some(airports[k]) else None
  }

  /** The keypad sequence that belongs to a detail record. */
  function SmsFor(detail: Option<Airport>): string
  {
    if detail.Some? then Keypad.SmsSequence(Some(detail.value.icao)) else ""
  }

  /** The two effects that follow a change of the detail record: the
      observation effect (clears data and error without a detail; otherwise
      marks loading, clears the error but not the previous data, and issues
      the lookup) and the sequence effect. */
  function OnDetail(s: AppState): (t: Transition)
    ensures t.state.detail == s.detail && t.state.airports == s.airports && t.state.selected == s.selected
    ensures t.state.metarError.None?
    ensures t.state.smsSequence == SmsFor(s.detail)
    ensures t.state.smsSequence == "" <==> !(s.detail.Some? && Keypad.Encodable(Some(s.detail.value.icao)))
    ensures s.detail.None? ==> t.state.metarData.None? && t.issued == [] && t.state.metarLoading == s.metarLoading
    ensures s.detail.Some? ==> t.state.metarLoading && t.state.metarData == s.metarData
                               && t.issued == [MetarLookup(s.detail.value.icao)]
    ensures t.state.(metarData := s.metarData, metarLoading := s.metarLoading,
                     metarError := s.metarError, smsSequence := s.smsSequence) == s
  {
    match s.detail
    case None =>
      Transition(s.(metarData := None, metarError := None, smsSequence := ""), [])
    case Some(a) =>
      Transition(s.(metarLoading := true, metarError := None, smsSequence := Keypad.SmsSequence(Some(a.icao))),
                 [MetarLookup(a.icao)])
  }

  /** The selection effect. The detail becomes the first listed airport with
      the selected identifier. The detail effects run when it changed: always
      when it is found in a freshly received list (a new record), when it was
      present before and is gone now, or when the value differs. */
  function Resolve(s: AppState, freshList: bool): (t: Transition)
    ensures t.state.detail == FindAirport(s.airports, s.selected)
    ensures t.state.airports == s.airports && t.state.selected == s.selected
    ensures t.state.query == s.query && t.state.airportLoading == s.airportLoading
    ensures t.state.sending == s.sending && t.state.sendError == s.sendError && t.state.sendSuccess == s.sendSuccess
    ensures s.smsSequence == SmsFor(s.detail) ==> t.state.smsSequence == SmsFor(t.state.detail)
    ensures |t.issued| <= 1 && forall r :: r in t.issued ==> r.MetarLookup?
    ensures t.issued == [] ==> t.state.metarLoading == s.metarLoading
    ensures t.state.detail.Some? && (freshList || t.state.detail != s.detail) ==>
              t.issued == [MetarLookup(t.state.detail.value.icao)]
              && t.state.metarLoading && t.state.metarError.None?
    ensures t.state.detail.None? && s.detail.Some? ==>
              t.issued == [] && t.state.metarData.None? && t.state.metarError.None? && t.state.smsSequence == ""
    ensures t.state.detail.Some? ==> t.state.metarData == s.metarData
    ensures (!freshList || t.state.detail.None?) && t.state.detail == s.detail ==> t == Transition(s, [])
  {
    var found := FindAirport(s.airports, s.selected);
    var changed := if freshList then found.Some? || s.detail.Some? else found != s.detail;
    if changed then OnDetail(s.(detail := found)) else Transition(s.(detail := found), [])
  }

  /** The user picks an airport from the list (an unchanged value re-renders
      nothing). */
  function PickAirport(s: AppState, icao: string): (t: Transition)
    ensures t.state.selected == icao
    ensures icao != s.selected ==> t.state.detail == FindAirport(s.airports, icao)
    ensures icao == s.selected ==> t == Transition(s, [])
    ensures forall r :: r in t.issued ==> r == MetarLookup(icao)
    ensures t.state.airports == s.airports && t.state.query == s.query && t.state.airportLoading == s.airportLoading
            && t.state.sending == s.sending && t.state.sendError == s.sendError && t.state.sendSuccess == s.sendSuccess
    ensures t.state.detail.Some? && t.state.detail != s.detail ==>
              && t.issued == [MetarLookup(icao)]
              && t.state.metarLoading && t.state.metarError.None? && t.state.metarData == s.metarData
              && t.state.smsSequence == SmsFor(t.state.detail)
    ensures t.state.detail.None? && s.detail.Some? ==>
              t.issued == [] && t.state.metarData.None? && t.state.metarError.None? && t.state.smsSequence == ""
  {
    if icao == s.selected then Transition(s, []) else Resolve(s.(selected := icao), false)
  }

  // ---------------------------------------------------------------------------
  // Search

  /** The user edits the query, starting the search effect. An empty query
      clears the list at once and issues nothing; any other query sets the
      loading flag and issues a lookup. */
  function StartSearch(s: AppState, q: string): (t: Transition)
    ensures q != s.query ==> t.state.query == q
    ensures q != s.query && q == "" ==> t.state.airports == [] && t.state.detail.None?
                                        && t.issued == []
                                        && t.state.airportLoading == s.airportLoading
    ensures q != s.query && q == "" && s.detail.None? ==> t == Transition(s.(query := q, airports := []), [])
    ensures q != s.query && q == "" && s.detail.Some? ==>
              t.state.metarData.None? && t.state.metarError.None? && t.state.smsSequence == ""
    ensures q != s.query && q != "" ==> t.state.airportLoading && t.issued == [AirportLookup(q)]
                                        && t.state.airports == s.airports
    ensures q != s.query && q != "" ==> t.state == s.(query := q, airportLoading := true)
    ensures t.state.selected == s.selected && t.state.sending == s.sending
            && t.state.sendError == s.sendError && t.state.sendSuccess == s.sendSuccess
    ensures q == s.query ==> t == Transition(s, [])
  {
    if q == s.query then Transition(s, [])
    else if q == "" then Resolve(s.(query := q, airports := []), true)
    else Transition(s.(query := q, airportLoading := true), [AirportLookup(q)])
  }

  /** A directory reply. An `airports` array replaces the list and, when it
      holds exactly one airport, selects it; anything else (including a
      thrown error or unparseable JSON; the `ok` flag is not consulted)
      leaves list and selection alone. Loading ends either way. */
  function FinishSearch(s: AppState, outcome: Outcome<AirportsBody>): (t: Transition)
    ensures !t.state.airportLoading
    ensures outcome.Responded? && outcome.body.Parsed? && outcome.body.payload.AirportList? ==>
              var list := outcome.body.payload.airports;
              && t.state.airports == list
              && (|list| == 1 ==> t.state.selected == list[0].icao && t.state.detail == Some(list[0]))
              && (|list| != 1 ==> t.state.selected == s.selected)
              && t.state.detail == FindAirport(list, t.state.selected)
              && t.state.query == s.query
              && t.state.sending == s.sending && t.state.sendError == s.sendError
              && t.state.sendSuccess == s.sendSuccess
              && (t.state.detail.Some? ==>
                    && t.issued == [MetarLookup(t.state.detail.value.icao)]
                    && t.state.metarLoading && t.state.metarError.None?
                    && t.state.metarData == s.metarData)
              && (t.state.detail.None? ==> t.issued == [])
              && (t.state.detail.Some? ==> t.state.smsSequence == SmsFor(t.state.detail))
              && (t.state.detail.None? && s.detail.Some? ==>
                    t.state.metarData.None? && t.state.metarError.None? && t.state.smsSequence == "")
              && (t.state.detail.None? && s.detail.None? ==>
                    && t.state.metarData == s.metarData && t.state.metarError == s.metarError
                    && t.state.smsSequence == s.smsSequence)
    ensures !(outcome.Responded? && outcome.body.Parsed? && outcome.body.payload.AirportList?) ==>
              t == Transition(s.(airportLoading := false), [])
  {
    var s1 := s.(airportLoading := false);
    match outcome
    case Responded(_, Parsed(AirportList(list))) =>
      var selected := if |list| == 1 then list[0].icao else s.selected;
      Resolve(s1.(airports := list, selected := selected), true)
    case _ => Transition(s1, [])
  }

  // ---------------------------------------------------------------------------
  // Observation

  /** An ok response whose payload is a non-empty array of observations. */
  predicate Delivers(outcome: Outcome<MetarBody>)
  {
    && outcome.Responded? && outcome.ok && outcome.body.Parsed?
    && outcome.body.payload.MetarList? && |outcome.body.payload.observations| > 0
  }

  /** An observation reply. A non-empty array supplies its first element
      (the error is left as it is); an empty or non-array payload reports
      that no data was found; a response that is not ok, a thrown error and
      unparseable JSON clear the data and report an error. Loading ends
      either way. */
  function FinishMetar(s: AppState, outcome: Outcome<MetarBody>): (r: AppState)
    ensures !r.metarLoading
    ensures r.metarData.Some? <==> Delivers(outcome)
    ensures Delivers(outcome) ==> r.metarData.value == outcome.body.payload.observations[0]
                                  && r.metarError == s.metarError
    ensures r.metarData.None? ==> r.metarError.Some? && r.metarError.value != ""
    ensures outcome.Responded? && outcome.ok && outcome.body.Parsed? && r.metarData.None? ==>
              r.metarError == Some(METAR_NO_DATA)
    ensures outcome.Responded? && !outcome.ok ==> r.metarError == Some(METAR_NETWORK_ERROR)
    ensures r.(metarData := s.metarData, metarLoading := s.metarLoading, metarError := s.metarError) == s
  {
    var s1 := s.(metarLoading := false);
    match outcome
    case Threw(m) => s1.(metarData := None, metarError := Some(ErrorText(m, METAR_FALLBACK)))
    case Responded(false, _) => s1.(metarData := None, metarError := Some(METAR_NETWORK_ERROR))
    case Responded(true, Unparseable(m)) => s1.(metarData := None, metarError := Some(ErrorText(m, METAR_FALLBACK)))
    case Responded(true, Parsed(MetarList(observations))) =>
      if |observations| > 0 then s1.(metarData := Some(observations[0]))
      else s1.(metarData := None, metarError := Some(METAR_NO_DATA))
    case Responded(true, Parsed(NoMetarList)) => s1.(metarData := None, metarError := Some(METAR_NO_DATA))
  }

  // ---------------------------------------------------------------------------
  // Dispatch

  /** The send button is disabled without a sequence or while sending. */
  predicate SendDisabled(s: AppState)
  {
    s.smsSequence == "" || s.sending
  }

  /** `handleSendSms`: without a sequence it only reports that there is
      nothing to send; otherwise it resets both indicators, marks sending and
      posts the sequence. */
  function HandleSendSms(s: AppState): (t: Transition)
    ensures s.smsSequence == "" ==> t == Transition(s.(sendError := Some(SEND_NO_SEQUENCE)), [])
    ensures s.smsSequence != "" ==> t.state.sending && t.state.sendError.None? && !t.state.sendSuccess
                                    && t.issued == [DtmfPost(s.smsSequence)]
    ensures t.state.(sending := s.sending, sendError := s.sendError, sendSuccess := s.sendSuccess) == s
  {
    if s.smsSequence == "" then Transition(s.(sendError := Some(SEND_NO_SEQUENCE)), [])
    else Transition(s.(sending := true, sendError := None, sendSuccess := false), [DtmfPost(s.smsSequence)])
  }

  /** A dispatch reply: an ok response reports success, a response that is
      not ok or a thrown error reports an error. Sending ends either way. */
  function FinishSend(s: AppState, outcome: Outcome<()>): (r: AppState)
    ensures !r.sending
    ensures r.sendSuccess <==> s.sendSuccess || (outcome.Responded? && outcome.ok)
    ensures r.sendError.Some? <==> s.sendError.Some? || !outcome.Responded? || !outcome.ok
    ensures !outcome.Responded? || !outcome.ok ==> r.sendError.value != ""
    ensures s.sendError.None? && !s.sendSuccess ==> (r.sendSuccess <==> r.sendError.None?)
    ensures r.(sending := s.sending, sendError := s.sendError, sendSuccess := s.sendSuccess) == s
  {
    var s1 := s.(sending := false);
    match outcome
    case Threw(m) => s1.(sendError := Some(ErrorText(m, SEND_FALLBACK)))
    case Responded(false, _) => s1.(sendError := Some(SEND_NETWORK_ERROR))
    case Responded(true, _) => s1.(sendSuccess := true)
  }

  // ---------------------------------------------------------------------------
  // The application with its outstanding requests

  datatype World = World(app: AppState, pending: seq<Request>)

  const START: World := World(INITIAL, [])

  /** What can happen next: a user action, or the reply to the outstanding
      request at position `index`. */
  datatype Event =
    | QueryEdited(text: string)
    | AirportPicked(icao: string)
    | SendClicked
    | AirportsReply(index: nat, airportsOutcome: Outcome<AirportsBody>)
    | MetarReply(index: nat, metarOutcome: Outcome<MetarBody>)
    | DtmfReply(index: nat, dtmfOutcome: Outcome<()>)

  /** `pending` without its element at `i`. */
  function Drop(pending: seq<Request>, i: nat): (r: seq<Request>)
    requires i < |pending|
    ensures |r| == |pending| - 1
    ensures multiset(r) + multiset{pending[i]} == multiset(pending)
  {
    assert pending == pending[..i] + [pending[i]] + pending[i + 1..];
    pending[..i] + pending[i + 1..]
  }

  function Apply(pending: seq<Request>, t: Transition): World
  {
    World(t.state, pending + t.issued)
  }

  /** One event. The airport list is disabled while a search is loading and
      the send button while it is disabled, so those inputs change nothing
      then. A reply is taken only for an outstanding request of its kind;
      any other reply leaves the world as it is. */
  function Step(w: World, e: Event): World
  {
    match e
    case QueryEdited(q) => Apply(w.pending, StartSearch(w.app, q))
    case AirportPicked(icao) =>
      if w.app.airportLoading then w else Apply(w.pending, PickAirport(w.app, icao))
    case SendClicked =>
      if SendDisabled(w.app) then w else Apply(w.pending, HandleSendSms(w.app))
    case AirportsReply(i, o) =>
      if i < |w.pending| && w.pending[i].AirportLookup?
      then Apply(Drop(w.pending, i), FinishSearch(w.app, o)) else w
    case MetarReply(i, o) =>
      if i < |w.pending| && w.pending[i].MetarLookup?
      then World(FinishMetar(w.app, o), Drop(w.pending, i)) else w
    case DtmfReply(i, o) =>
      if i < |w.pending| && w.pending[i].DtmfPost?
      then World(FinishSend(w.app, o), Drop(w.pending, i)) else w
  }

  /** What one event may change: the disabled inputs change nothing, user
      events only append requests, and a reply to an outstanding request of
      its kind ends that effect and removes exactly that request. */
  lemma StepEffects(w: World, e: Event)
    ensures e.AirportPicked? && w.app.airportLoading ==> Step(w, e) == w
    ensures e.SendClicked? && SendDisabled(w.app) ==> Step(w, e) == w
    ensures e.QueryEdited? || e.AirportPicked? || e.SendClicked? ==> w.pending <= Step(w, e).pending
    ensures e.AirportsReply? ==>
              if e.index < |w.pending| && w.pending[e.index].AirportLookup?
              then !Step(w, e).app.airportLoading && Drop(w.pending, e.index) <= Step(w, e).pending
              else Step(w, e) == w
    ensures e.MetarReply? ==>
              if e.index < |w.pending| && w.pending[e.index].MetarLookup?
              then !Step(w, e).app.metarLoading && |Step(w, e).pending| == |w.pending| - 1
                   && multiset(Step(w, e).pending) + multiset{w.pending[e.index]} == multiset(w.pending)
              else Step(w, e) == w
    ensures e.DtmfReply? ==>
              if e.index < |w.pending| && w.pending[e.index].DtmfPost?
              then !Step(w, e).app.sending && |Step(w, e).pending| == |w.pending| - 1
                   && multiset(Step(w, e).pending) + multiset{w.pending[e.index]} == multiset(w.pending)
              else Step(w, e) == w
  {
  }

  function Run(w: World, events: seq<Event>): World
    decreases |events|
  {
    if |events| == 0 then w else Run(Step(w, events[0]), events[1..])
  }

  // ---------------------------------------------------------------------------
  // What the map component is given

  /** The map's properties: the detail's position and name at zoom 10 with
      the observation values (all missing while there is no observation), or
      the world overview at (0, 0), zoom 2, without observation. */
  function MapProps(s: AppState): (p: MapSection.Props)
    ensures s.detail.None? ==>
              && MapSection.Target(true, p) == Some((0.0, 0.0))
              && p.name == Some(MapSection.WORLD_NAME) && MapSection.EffectiveZoom(p.zoom) == 2.0
              && p.meteo.None?
    ensures s.detail.Some? ==>
              && p.lat == s.detail.value.latitude && p.lon == s.detail.value.longitude
              && p.name == s.detail.value.name && MapSection.EffectiveZoom(p.zoom) == 10.0
              && p.meteo.Some?
              && (s.metarData.Some? ==> p.meteo == s.metarData)
              && (s.metarData.None? ==> p.meteo == Some(NO_VALUES))
  {
    match s.detail
    case Some(a) =>
      var m := if s.metarData.Some? then s.metarData.value else NO_VALUES;
      MapSection.Props(a.latitude, a.longitude, a.name, Some(Finite(10.0)), Some(m))
    case None =>
      MapSection.Props(Some(Finite(0.0)), Some(Finite(0.0)), Some(MapSection.WORLD_NAME), Some(Finite(2.0)), None)
  }
}

=== FILE: PipelineProofs.dfy ===
/** Properties of the pipeline over whole runs: the invariants every
    reachable state keeps, and the consequences of completions carrying no
    generation tag. */
module PipelineProofs {
  import opened Pipeline

  datatype Kind = SearchKind | MetarKind | DtmfKind

  function KindOf(r: Request): Kind
  {
    match r
    case AirportLookup(_) => SearchKind
    case MetarLookup(_) => MetarKind
    case DtmfPost(_) => DtmfKind
  }

  /** How many outstanding requests are of kind `k`. */
  function Outstanding(pending: seq<Request>, k: Kind): nat
  {
    if |pending| == 0 then 0
    else (if KindOf(pending[0]) == k then 1 else 0) + Outstanding(pending[1..], k)
  }

  lemma {:induction false} OutstandingAppend(a: seq<Request>, b: seq<Request>, k: Kind)
    ensures Outstanding(a + b, k) == Outstanding(a, k) + Outstanding(b, k)
  {
    if |a| == 0 {
      assert a + b == b;
    } else {
      assert (a + b)[1..] == a[1..] + b;
      OutstandingAppend(a[1..], b, k);
    }
  }

  lemma OutstandingDrop(pending: seq<Request>, i: nat, k: Kind)
    requires i < |pending|
    ensures Outstanding(Drop(pending, i), k) + (if KindOf(pending[i]) == k then 1 else 0) == Outstanding(pending, k)
  {
    assert pending == pending[..i] + [pending[i]] + pending[i + 1..];
    OutstandingAppend(pending[..i] + [pending[i]], pending[i + 1..], k);
    OutstandingAppend(pending[..i], [pending[i]], k);
    OutstandingAppend(pending[..i], pending[i + 1..], k);
  }

  /** Requests issued by a selection step are observation lookups. */
  lemma OutstandingAfterLookups(pending: seq<Request>, issued: seq<Request>)
    requires |issued| <= 1 && forall r :: r in issued ==> r.MetarLookup?
    ensures Outstanding(pending + issued, SearchKind) == Outstanding(pending, SearchKind)
    ensures Outstanding(pending + issued, DtmfKind) == Outstanding(pending, DtmfKind)
    ensures Outstanding(pending + issued, MetarKind) == Outstanding(pending, MetarKind) + |issued|
  {
    OutstandingAppend(pending, issued, SearchKind);
    OutstandingAppend(pending, issued, DtmfKind);
    OutstandingAppend(pending, issued, MetarKind);
    if |issued| == 1 {
      assert issued[0] in issued;
      assert issued[1..] == [];
    }
  }

  /** The invariant of every reachable world: the detail is the lookup of the
      selection in the list; the keypad sequence is the detail's; a dispatch
      is in flight exactly while sending, and never more than one; while
      sending neither indicator is set, and success and error are never both
      shown; a loading flag is set only while a request of its kind is
      outstanding. */
  predicate Consistent(w: World)
  {
    && w.app.detail == FindAirport(w.app.airports, w.app.selected)
    && w.app.smsSequence == SmsFor(w.app.detail)
    && Outstanding(w.pending, DtmfKind) <= 1
    && (w.app.sending <==> Outstanding(w.pending, DtmfKind) == 1)
    && (w.app.sending ==> w.app.sendError.None? && !w.app.sendSuccess)
    && !(w.app.sendSuccess && w.app.sendError.Some?)
    && (w.app.metarLoading ==> Outstanding(w.pending, MetarKind) > 0)
    && (w.app.airportLoading ==> Outstanding(w.pending, SearchKind) > 0)
  }

  /** A selection step keeps the invariant. */
  lemma ResolveKeepsConsistent(w: World, s: AppState, freshList: bool)
    requires Consistent(w)
    requires s.smsSequence == SmsFor(s.detail)
    requires s.sending == w.app.sending && s.sendError == w.app.sendError && s.sendSuccess == w.app.sendSuccess
    requires s.metarLoading ==> Outstanding(w.pending, MetarKind) > 0
    requires s.airportLoading ==> Outstanding(w.pending, SearchKind) > 0
    ensures Consistent(Apply(w.pending, Resolve(s, freshList)))
  {
    var t := Resolve(s, freshList);
    OutstandingAfterLookups(w.pending, t.issued);
  }

  lemma QueryKeepsConsistent(w: World, q: string)
    requires Consistent(w)
    ensures Consistent(Step(w, QueryEdited(q)))
  {
    var s := w.app;
    if q != s.query {
      if q == "" {
        ResolveKeepsConsistent(w, s.(query := q, airports := []), true);
      } else {
        OutstandingAppend(w.pending, [AirportLookup(q)], SearchKind);
        OutstandingAppend(w.pending, [AirportLookup(q)], MetarKind);
        OutstandingAppend(w.pending, [AirportLookup(q)], DtmfKind);
      }
    } else {
      assert w.pending + [] == w.pending;
    }
  }

  lemma PickKeepsConsistent(w: World, icao: string)
    requires Consistent(w)
    ensures Consistent(Step(w, AirportPicked(icao)))
  {
    if icao != w.app.selected {
      ResolveKeepsConsistent(w, w.app.(selected := icao), false);
    } else {
      assert w.pending + [] == w.pending;
    }
  }

  lemma ClickKeepsConsistent(w: World)
    requires Consistent(w)
    ensures Consistent(Step(w, SendClicked))
  {
    var s := w.app;
    if !SendDisabled(s) {
      OutstandingAppend(w.pending, [DtmfPost(s.smsSequence)], SearchKind);
      OutstandingAppend(w.pending, [DtmfPost(s.smsSequence)], MetarKind);
      OutstandingAppend(w.pending, [DtmfPost(s.smsSequence)], DtmfKind);
    }
  }

  /** A directory reply carrying a list: the selection step runs on the new
      list after loading ended. */
  lemma ListReplyKeepsConsistent(w: World, i: nat, ok: bool, list: seq<Airport>)
    requires Consistent(w)
    requires i < |w.pending| && w.pending[i].AirportLookup?
    ensures Consistent(Step(w, AirportsReply(i, Responded(ok, Parsed(AirportList(list))))))
  {
    var s := w.app;
    var rest := Drop(w.pending, i);
    OutstandingDrop(w.pending, i, SearchKind);
    OutstandingDrop(w.pending, i, MetarKind);
    OutstandingDrop(w.pending, i, DtmfKind);
    var s1 := s.(airportLoading := false);
    var selected := if |list| == 1 then list[0].icao else s.selected;
    var t := FinishSearch(s, Responded(ok, Parsed(AirportList(list))));
    assert t == Resolve(s1.(airports := list, selected := selected), true);
    ResolveKeepsConsistent(World(s1, rest), s1.(airports := list, selected := selected), true);
  }

  lemma AirportsReplyKeepsConsistent(w: World, i: nat, o: Outcome<AirportsBody>)
    requires Consistent(w)
    ensures Consistent(Step(w, AirportsReply(i, o)))
  {
    if i < |w.pending| && w.pending[i].AirportLookup? {
      if o.Responded? && o.body.Parsed? && o.body.payload.AirportList? {
        ListReplyKeepsConsistent(w, i, o.ok, o.body.payload.airports);
      } else {
        var rest := Drop(w.pending, i);
        OutstandingDrop(w.pending, i, SearchKind);
        OutstandingDrop(w.pending, i, MetarKind);
        OutstandingDrop(w.pending, i, DtmfKind);
        assert rest + [] == rest;
      }
    }
  }

  lemma MetarReplyKeepsConsistent(w: World, i: nat, o: Outcome<MetarBody>)
    requires Consistent(w)
    ensures Consistent(Step(w, MetarReply(i, o)))
  {
    if i < |w.pending| && w.pending[i].MetarLookup? {
      OutstandingDrop(w.pending, i, SearchKind);
      OutstandingDrop(w.pending, i, MetarKind);
      OutstandingDrop(w.pending, i, DtmfKind);
    }
  }

  lemma DtmfReplyKeepsConsistent(w: World, i: nat, o: Outcome<()>)
    requires Consistent(w)
    ensures Consistent(Step(w, DtmfReply(i, o)))
  {
    if i < |w.pending| && w.pending[i].DtmfPost? {
      OutstandingDrop(w.pending, i, SearchKind);
      OutstandingDrop(w.pending, i, MetarKind);
      OutstandingDrop(w.pending, i, DtmfKind);
    }
  }

  lemma StepKeepsConsistent(w: World, e: Event)
    requires Consistent(w)
    ensures Consistent(Step(w, e))
  {
    match e
    case QueryEdited(q) => QueryKeepsConsistent(w, q);
    case AirportPicked(icao) => PickKeepsConsistent(w, icao);
    case SendClicked => ClickKeepsConsistent(w);
    case AirportsReply(i, o) => AirportsReplyKeepsConsistent(w, i, o);
    case MetarReply(i, o) => MetarReplyKeepsConsistent(w, i, o);
    case DtmfReply(i, o) => DtmfReplyKeepsConsistent(w, i, o);
  }

  lemma {:induction false} RunKeepsConsistent(w: World, events: seq<Event>)
    requires Consistent(w)
    ensures Consistent(Run(w, events))
    decreases |events|
  {
    if |events| > 0 {
      StepKeepsConsistent(w, events[0]);
      RunKeepsConsistent(Step(w, events[0]), events[1..]);
    }
  }

  /** Whatever the user does and whatever the replies, in whatever order:
      the detail is the selection's first match, the keypad sequence is the
      detail's, at most one dispatch is in flight and exactly while sending,
      and success and error are never shown together. */
  lemma ReachableConsistent(events: seq<Event>)
    ensures var w := Run(START, events);
            && w.app.detail == FindAirport(w.app.airports, w.app.selected)
            && w.app.smsSequence == SmsFor(w.app.detail)
            && Outstanding(w.pending, DtmfKind) <= 1
            && (w.app.sending <==> Outstanding(w.pending, DtmfKind) == 1)
            && !(w.app.sendSuccess && w.app.sendError.Some?)
  {
    RunKeepsConsistent(START, events);
  }
}

=== FILE: PipelineScenarios.dfy ===
/** What the pipeline does in particular sequences of events. The
    observation replies carry no tag naming the selection they were issued
    for, so a late reply is written whatever has been selected since; these
    lemmas pin that behaviour down, next to the dispatch round trip and what
    the map is shown. */
module PipelineScenarios {
  import opened Values
  import opened Tooltips
  import MapSection
  import opened Pipeline
  import opened PipelineProofs

  /** The first observation a delivering reply carries. */
  function Delivered(o: Outcome<MetarBody>): Observation
    requires Delivers(o)
  {
    o.body.payload.observations[0]
  }

  /** Running events one after the other. */
  lemma RunTwo(w: World, e1: Event, e2: Event)
    ensures Run(w, [e1, e2]) == Step(Step(w, e1), e2)
  {
    var w1 := Step(w, e1);
    var w2 := Step(w1, e2);
    assert [e2][1..] == [];
    assert Run(w1, [e2]) == Run(w2, []) == w2;
    assert [e1, e2][1..] == [e2];
  }

  lemma RunThree(w: World, e1: Event, e2: Event, e3: Event)
    ensures Run(w, [e1, e2, e3]) == Step(Step(Step(w, e1), e2), e3)
  {
    assert [e1, e2, e3][1..] == [e2, e3];
    RunTwo(Step(w, e1), e2, e3);
  }

  lemma RunFour(w: World, e1: Event, e2: Event, e3: Event, e4: Event)
    ensures Run(w, [e1, e2, e3, e4]) == Step(Step(Step(Step(w, e1), e2), e3), e4)
  {
    assert [e1, e2, e3, e4][1..] == [e2, e3, e4];
    RunThree(Step(w, e1), e2, e3, e4);
  }

  /** While a search is loading the list is disabled: a pick changes
      nothing and queues nothing. */
  lemma PickWhileLoadingIgnored(w: World, icao: string)
    requires w.app.airportLoading
    ensures Step(w, AirportPicked(icao)) == w
  {
  }

  /** Picking a listed airport that is not the current detail makes it the
      detail and queues its observation lookup. */
  lemma PickListed(w: World, a: Airport)
    requires !w.app.airportLoading && FindAirport(w.app.airports, a.icao) == Some(a)
    requires w.app.selected != a.icao && w.app.detail != Some(a)
    ensures var w1 := Step(w, AirportPicked(a.icao));
            && w1.app.detail == Some(a) && w1.app.selected == a.icao
            && w1.app.airports == w.app.airports
            && w1.pending == w.pending + [MetarLookup(a.icao)]
            && w1.app.metarLoading && w1.app.metarError.None?
  {
  }

  /** A reply to the outstanding observation lookup at position `i`. */
  lemma MetarReplyAt(w: World, i: nat, o: Outcome<MetarBody>)
    requires i < |w.pending| && w.pending[i].MetarLookup?
    ensures Step(w, MetarReply(i, o)) == World(FinishMetar(w.app, o), Drop(w.pending, i))
  {
  }

  /** A world with a list holding airports `a` and `b` (each the first match
      of its identifier), neither selected, no search loading, and nothing
      outstanding. */
  predicate TwoChoices(w: World, a: Airport, b: Airport)
  {
    && Consistent(w)
    && w.pending == []
    && !w.app.airportLoading
    && a.icao != b.icao
    && FindAirport(w.app.airports, a.icao) == Some(a)
    && FindAirport(w.app.airports, b.icao) == Some(b)
    && w.app.selected != a.icao
  }

  /** Picking A, then B, before A's observation arrives: each pick issues its
      own lookup, queued in order. */
  lemma PickTwice(w: World, a: Airport, b: Airport)
    requires TwoChoices(w, a, b)
    ensures var w2 := Step(Step(w, AirportPicked(a.icao)), AirportPicked(b.icao));
            && w2.app.detail == Some(b)
            && w2.pending == [MetarLookup(a.icao), MetarLookup(b.icao)]
            && w2.app.metarLoading && w2.app.metarError.None?
  {
    assert w.app.detail != Some(a);
    PickListed(w, a);
    var w1 := Step(w, AirportPicked(a.icao));
    PickListed(w1, b);
  }

  /** Picking A, then B. */
  function Picks(w: World, a: Airport, b: Airport): World
  {
    Step(Step(w, AirportPicked(a.icao)), AirportPicked(b.icao))
  }

  /** The first reply after picking A and B, to A's lookup (`i` = 0) or to
      B's (`i` = 1), leaves B as the detail and the other lookup outstanding. */
  lemma FirstReply(w: World, a: Airport, b: Airport, i: nat, o: Outcome<MetarBody>)
    requires TwoChoices(w, a, b) && i < 2
    ensures var w3 := Step(Picks(w, a, b), MetarReply(i, o));
            && w3.app == FinishMetar(Picks(w, a, b).app, o)
            && w3.app.detail == Some(b)
            && w3.pending == [MetarLookup(if i == 0 then b.icao else a.icao)]
  {
    PickTwice(w, a, b);
    MetarReplyAt(Picks(w, a, b), i, o);
  }

  /** When B's observation arrives before A's, A's late observation replaces
      it: B stays selected while A's weather is shown. */
  lemma LateReplyOverwritesNewerSelection(w: World, a: Airport, b: Airport,
                                          forA: Outcome<MetarBody>, forB: Outcome<MetarBody>)
    requires TwoChoices(w, a, b)
    requires Delivers(forA) && Delivers(forB)
    ensures var end := Run(w, [AirportPicked(a.icao), AirportPicked(b.icao), MetarReply(1, forB), MetarReply(0, forA)]);
            && end.app.detail == Some(b)
            && end.app.metarData == Some(Delivered(forA))
            && end.pending == []
  {
    RunFour(w, AirportPicked(a.icao), AirportPicked(b.icao), MetarReply(1, forB), MetarReply(0, forA));
    FirstReply(w, a, b, 1, forB);
    MetarReplyAt(Step(Picks(w, a, b), MetarReply(1, forB)), 0, forA);
  }

  /** In the other order the newer selection's observation is shown. */
  lemma InOrderRepliesShowNewerSelection(w: World, a: Airport, b: Airport,
                                         forA: Outcome<MetarBody>, forB: Outcome<MetarBody>)
    requires TwoChoices(w, a, b)
    requires Delivers(forA) && Delivers(forB)
    ensures var end := Run(w, [AirportPicked(a.icao), AirportPicked(b.icao), MetarReply(0, forA), MetarReply(0, forB)]);
            && end.app.detail == Some(b)
            && end.app.metarData == Some(Delivered(forB))
            && end.pending == []
  {
    RunFour(w, AirportPicked(a.icao), AirportPicked(b.icao), MetarReply(0, forA), MetarReply(0, forB));
    FirstReply(w, a, b, 0, forA);
    MetarReplyAt(Step(Picks(w, a, b), MetarReply(0, forA)), 0, forB);
  }

  /** The first reply ends loading although the second lookup is still
      outstanding; a failed reply for A followed by data for B shows B's data
      together with A's error. */
  lemma FirstReplyEndsLoading(w: World, a: Airport, b: Airport, message: string,
                              forB: Outcome<MetarBody>)
    requires TwoChoices(w, a, b)
    requires Delivers(forB)
    ensures var w3 := Run(w, [AirportPicked(a.icao), AirportPicked(b.icao), MetarReply(0, Threw(message))]);
            && !w3.app.metarLoading
            && w3.pending == [MetarLookup(b.icao)]
            && Outstanding(w3.pending, MetarKind) == 1
    ensures var end := Run(w, [AirportPicked(a.icao), AirportPicked(b.icao), MetarReply(0, Threw(message)), MetarReply(0, forB)]);
            && end.app.metarData == Some(Delivered(forB))
            && end.app.metarError == Some(ErrorText(message, METAR_FALLBACK))
  {
    RunThree(w, AirportPicked(a.icao), AirportPicked(b.icao), MetarReply(0, Threw(message)));
    RunFour(w, AirportPicked(a.icao), AirportPicked(b.icao), MetarReply(0, Threw(message)), MetarReply(0, forB));
    var w3 := Step(Picks(w, a, b), MetarReply(0, Threw(message)));
    FirstReply(w, a, b, 0, Threw(message));
    assert Outstanding(w3.pending, MetarKind) == 1 by {
      assert w3.pending == [] + [MetarLookup(b.icao)];
      OutstandingAppend([], [MetarLookup(b.icao)], MetarKind);
    }
    MetarReplyAt(w3, 0, forB);
  }

  /** Clearing the query while A's lookup is outstanding drops the detail and
      clears the observation, but A's reply is still written: an observation
      is shown with nothing selected. */
  lemma ObservationWithoutSelection(w: World, a: Airport, forA: Outcome<MetarBody>)
    requires Consistent(w) && w.pending == [] && w.app.query != "" && !w.app.airportLoading
    requires FindAirport(w.app.airports, a.icao) == Some(a) && w.app.selected != a.icao
    requires Delivers(forA)
    ensures var w2 := Run(w, [AirportPicked(a.icao), QueryEdited("")]);
            w2.app.detail.None? && w2.app.metarData.None? && w2.pending == [MetarLookup(a.icao)]
    ensures var end := Run(w, [AirportPicked(a.icao), QueryEdited(""), MetarReply(0, forA)]);
            end.app.detail.None? && end.app.metarData == Some(Delivered(forA))
  {
    RunTwo(w, AirportPicked(a.icao), QueryEdited(""));
    RunThree(w, AirportPicked(a.icao), QueryEdited(""), MetarReply(0, forA));
    assert w.app.detail != Some(a);
    PickListed(w, a);
    var w1 := Step(w, AirportPicked(a.icao));
    var w2 := Step(w1, QueryEdited(""));
    assert w2.app.detail.None? && w2.app.metarData.None?;
    assert w2.pending == [MetarLookup(a.icao)];
    MetarReplyAt(w2, 0, forA);
  }

  // ---------------------------------------------------------------------------
  // Dispatch

  /** A click on a disabled button changes nothing and sends nothing. */
  lemma DisabledClickIgnored(w: World)
    requires SendDisabled(w.app)
    ensures Step(w, SendClicked) == w
  {
  }

  /** A click on the enabled button posts the sequence; its reply ends
      sending with exactly one of success and error shown and no dispatch
      outstanding. */
  lemma SendRoundTrip(w: World, o: Outcome<()>)
    requires Consistent(w) && !SendDisabled(w.app)
    ensures var w1 := Step(w, SendClicked);
            && w1.app.sending && w1.pending == w.pending + [DtmfPost(w.app.smsSequence)]
    ensures var end := Step(Step(w, SendClicked), DtmfReply(|w.pending|, o));
            && !end.app.sending
            && (end.app.sendSuccess <==> end.app.sendError.None?)
            && (end.app.sendSuccess <==> o.Responded? && o.ok)
            && Outstanding(end.pending, DtmfKind) == 0
  {
    var w1 := Step(w, SendClicked);
    ClickKeepsConsistent(w);
    DtmfReplyKeepsConsistent(w1, |w.pending|, o);
    OutstandingDrop(w1.pending, |w.pending|, DtmfKind);
  }

  // ---------------------------------------------------------------------------
  // The map the application shows

  /** Without a detail the map shows the world overview at zoom 2 and no
      marker. */
  lemma OverviewHasNoMarker(s: AppState, widget: MapSection.Widget)
    requires s.detail.None?
    ensures var r := MapSection.Update(widget, true, MapProps(s));
            r.0.marker.None? && r.0.mapView == Some(MapSection.View(0.0, 0.0, 2.0))
  {
  }

  /** With a detail at usable coordinates (and a name other than the
      overview's) the single marker sits at the detail's position and always
      carries a tooltip: the observation's values, or only placeholders and
      the arrow at 90 degrees while there is no observation. */
  lemma DetailMarker(s: AppState, widget: MapSection.Widget)
    requires s.detail.Some?
    requires MapSection.Target(true, MapProps(s)).Some?
    requires s.detail.value.name != Some(MapSection.WORLD_NAME)
    ensures var r := MapSection.Update(widget, true, MapProps(s));
            && r.0.marker.Some?
            && r.0.marker.value.lat == s.detail.value.latitude.value.value
            && r.0.marker.value.lon == s.detail.value.longitude.value.value
            && r.0.marker.value.tooltip.Some?
            && r.0.mapView.value.zoom == 10.0
    ensures s.metarData.None? ==>
              MapSection.Update(widget, true, MapProps(s)).0.marker.value.tooltip
                == Some(Tooltip(PLACEHOLDER, PLACEHOLDER, PLACEHOLDER, PLACEHOLDER, PLACEHOLDER, 90))
    ensures s.metarData.Some? && Unambiguous(s.metarData.value) ==>
              ReadTooltip(MapSection.Update(widget, true, MapProps(s)).0.marker.value.tooltip.value) == s.metarData.value
  {
    if s.metarData.Some? && Unambiguous(s.metarData.value) {
      TooltipShowsObservation(s.metarData.value);
    }
  }
}

=== FILE: Strings.dfy ===
/** Array.prototype.join and String.prototype.split on a one-character
    separator, and occurrence counting: the encoder joins its runs, and the
    decoder that inverts it splits them again. */
module Strings {

  /** Number of occurrences of `c` in `s`. */
  function Count(s: string, c: char): nat
  {
    if |s| == 0 then 0 else (if s[0] == c then 1 else 0) + Count(s[1..], c)
  }

  /** `parts.join(sep)`: the empty list joins to "", otherwise neighbours are
      separated by exactly one `sep`. */
  function Join(parts: seq<string>, sep: char): string
  {
    if |parts| == 0 then ""
    else if |parts| == 1 then parts[0]
    else parts[0] + [sep] + Join(parts[1..], sep)
  }

  /** `s.split(sep)`: the maximal `sep`-free pieces of `s`, in order; "" splits to [""]. */
  function Split(s: string, sep: char): (parts: seq<string>)
    ensures |parts| >= 1
  {
    if |s| == 0 then [""]
    else
      var rest := Split(s[1..], sep);
      if s[0] == sep then [""] + rest else [[s[0]] + rest[0]] + rest[1..]
  }

  lemma {:induction false} CountAppend(a: string, b: string, c: char)
    ensures Count(a + b, c) == Count(a, c) + Count(b, c)
  {
    if |a| == 0 {
      assert a + b == b;
    } else {
      assert (a + b)[1..] == a[1..] + b;
      CountAppend(a[1..], b, c);
    }
  }

  /** A string free of `c` is its own only piece. */
  lemma {:induction false} SplitFree(a: string, sep: char)
    requires sep !in a
    ensures Split(a, sep) == [a]
  {
    if |a| > 0 {
      SplitFree(a[1..], sep);
      assert [a[0]] + a[1..] == a;
    }
  }

  /** Splitting peels off a leading `sep`-free piece. */
  lemma {:induction false} SplitPrefix(a: string, sep: char, b: string)
    requires sep !in a
    ensures Split(a + [sep] + b, sep) == [a] + Split(b, sep)
  {
    if |a| == 0 {
      assert a + [sep] + b == [sep] + b;
      assert ([sep] + b)[1..] == b;
    } else {
      var s := a + [sep] + b;
      assert s[1..] == a[1..] + [sep] + b;
      SplitPrefix(a[1..], sep, b);
      assert [a[0]] + a[1..] == a;
    }
  }

  /** split inverts join when no part contains the separator. */
  lemma {:induction false} SplitJoin(parts: seq<string>, sep: char)
    requires |parts| >= 1
    requires forall i :: 0 <= i < |parts| ==> sep !in parts[i]
    ensures Split(Join(parts, sep), sep) == parts
  {
    if |parts| == 1 {
      SplitFree(parts[0], sep);
    } else {
      SplitJoin(parts[1..], sep);
      SplitPrefix(parts[0], sep, Join(parts[1..], sep));
      assert [parts[0]] + parts[1..] == parts;
    }
  }

  /** A string without `c` has no occurrence of it. */
  lemma {:induction false} CountAbsent(s: string, c: char)
    requires c !in s
    ensures Count(s, c) == 0
  {
    if |s| > 0 {
      assert c !in s[1..];
      CountAbsent(s[1..], c);
    }
  }

  /** join inverts split. */
  lemma {:induction false} JoinSplit(s: string, sep: char)
    ensures Join(Split(s, sep), sep) == s
  {
    if |s| > 0 {
      var rest := Split(s[1..], sep);
      JoinSplit(s[1..], sep);
      assert [s[0]] + s[1..] == s;
      if s[0] != sep && |rest| > 1 {
        assert Join(rest, sep) == rest[0] + [sep] + Join(rest[1..], sep);
      }
    }
  }

  /** Joining four parts. */
  lemma JoinFour(parts: seq<string>, sep: char)
    requires |parts| == 4
    ensures Join(parts, sep) == parts[0] + [sep] + parts[1] + [sep] + parts[2] + [sep] + parts[3]
  {
    var p1, p2, p3 := parts[1..], parts[2..], parts[3..];
    assert p1[1..] == p2 && p2[1..] == p3 && p3 == [parts[3]];
    assert Join(p3, sep) == parts[3];
    assert Join(p2, sep) == parts[2] + [sep] + parts[3];
    assert Join(p1, sep) == parts[1] + [sep] + (parts[2] + [sep] + parts[3]);
  }
}

=== FILE: Tooltips.dfy ===
/** The marker tooltip of the map (`buildTooltip`): the five observation
    values, each shown or replaced by a placeholder, and the rotation of the
    wind arrow. The tooltip is modelled as its fields, not as markup. */
module Tooltips {
  import opened Values

  /** Shown in place of a missing value (an en dash). */
  const PLACEHOLDER: string := "–"

  /** The arrow glyph points east when unrotated; turning it by the wind
      direction plus this offset makes it point where the wind blows to. */
  const ARROW_OFFSET: nat := 90
  const FULL_TURN: nat := 360

  /** The observation values the tooltip shows. Wind direction is a whole
      number of degrees; the other values are kept as the text they display. */
  datatype Observation = Observation(
    temp: Option<string>,
    dewp: Option<string>,
    wdir: Option<nat>,
    wspd: Option<string>,
    visib: Option<string>)

  /** The observation with every value missing. */
  const NO_VALUES: Observation := Observation(None, None, None, None, None)

  /** The displayed cells and the arrow's rotation in degrees. */
  datatype Tooltip = Tooltip(
    temp: string,
    dewp: string,
    wdir: string,
    wspd: string,
    visib: string,
    rotation: nat)

  /** `v ?? '–'`. */
  function Cell(v: Option<string>): string
  {
    v.GetOr(PLACEHOLDER)
  }

  predicate IsDigit(c: char) { '0' <= c <= '9' }

  /** The decimal text of a whole number. */
  function Decimal(n: nat): (s: string)
    ensures |s| >= 1
    ensures forall i :: 0 <= i < |s| ==> IsDigit(s[i])
  {
    var d := ['0' + (n % 10) as char];
    if n < 10 then d else Decimal(n / 10) + d
  }

  /** The arrow's rotation: the wind direction (zero when missing) plus the
      offset, reduced to one turn. */
  function Rotation(wdir: Option<nat>): (r: nat)
    ensures r < FULL_TURN
    ensures (r - wdir.GetOr(0) - ARROW_OFFSET) % FULL_TURN == 0
  {
    (wdir.GetOr(0) + ARROW_OFFSET) % FULL_TURN
  }

  /** `buildTooltip`: nothing for a missing observation; otherwise every
      value's cell, a missing one shown as the placeholder, and the arrow. */
  function BuildTooltip(m: Option<Observation>): (t: Option<Tooltip>)
    ensures t.None? <==> m.None?
    ensures t.Some? ==> t.value.rotation < FULL_TURN
    ensures t.Some? ==> (t.value.rotation - m.value.wdir.GetOr(0) - ARROW_OFFSET) % FULL_TURN == 0
    ensures t.Some? ==> (t.value.wdir == PLACEHOLDER <==> m.value.wdir.None?)
  {
    match m
    case None => None
    case Some(o) =>
      var wdirText := if o.wdir.Some? then Decimal(o.wdir.value) else PLACEHOLDER;
      Some(Tooltip(Cell(o.temp), Cell(o.dewp), wdirText, Cell(o.wspd), Cell(o.visib), Rotation(o.wdir)))
  }

  // ---------------------------------------------------------------------------
  // Reading a tooltip back

  /** The number a decimal text denotes. */
  function DecimalValue(s: string): nat
  {
    if |s| == 0 then 0
    else
      var c := s[|s| - 1];
      DecimalValue(s[..|s| - 1]) * 10 + (if IsDigit(c) then c as int - '0' as int else 0)
  }

  lemma {:induction false} DecimalRoundTrip(n: nat)
    ensures DecimalValue(Decimal(n)) == n
  {
    var d := ['0' + (n % 10) as char];
    if n >= 10 {
      DecimalRoundTrip(n / 10);
      var s := Decimal(n / 10) + d;
      assert s[..|s| - 1] == Decimal(n / 10);
    }
  }

  /** A cell read back: the placeholder means a missing value. */
  function ReadCell(text: string): Option<string>
  {
    if text == PLACEHOLDER then None else Some(text)
  }

  /** The observation a tooltip displays, as a reader of it recovers it. */
  function ReadTooltip(t: Tooltip): Observation
  {
    Observation(ReadCell(t.temp), ReadCell(t.dewp),
                if t.wdir == PLACEHOLDER then None else Some(DecimalValue(t.wdir)),
                ReadCell(t.wspd), ReadCell(t.visib))
  }

  /** No value is itself the placeholder text. */
  predicate Unambiguous(o: Observation)
  {
    o.temp != Some(PLACEHOLDER) && o.dewp != Some(PLACEHOLDER)
    && o.wspd != Some(PLACEHOLDER) && o.visib != Some(PLACEHOLDER)
  }

  /** The tooltip shows every value of the observation, and shows exactly
      which ones are missing: reading it back recovers the observation. */
  lemma TooltipShowsObservation(o: Observation)
    requires Unambiguous(o)
    ensures BuildTooltip(Some(o)).Some?
    ensures ReadTooltip(BuildTooltip(Some(o)).value) == o
  {
    if o.wdir.Some? {
      DecimalRoundTrip(o.wdir.value);
      assert Decimal(o.wdir.value) != PLACEHOLDER by {
        assert IsDigit(Decimal(o.wdir.value)[0]);
      }
    }
  }

  /** Turning the arrow back by the offset recovers the wind direction
      modulo a full turn. */
  lemma ArrowPointsDownwind(w: nat)
    ensures (Rotation(Some(w)) + FULL_TURN - ARROW_OFFSET) % FULL_TURN == w % FULL_TURN
  {
  }

  lemma RotationExamples()
    ensures Rotation(Some(0)) == 90
    ensures Rotation(Some(270)) == 0
    ensures Rotation(None) == 90
    ensures Rotation(Some(360)) == 90
  {
  }
}

=== FILE: Values.dfy ===
/** Plain value types shared by every part of the model: an optional value
    (JavaScript's null/undefined versus a present value) and the result of
    JavaScript's Number() conversion. */
module Values {

  /** A value that may be absent (null or undefined in the client). */
  datatype Option<+T> = None | Some(value: T) {

    /** The present value, or `default` when absent (the `??` operator). */
    function GetOr(default: T): T {
      match this
      case Some(v) => v
      case None => default
    }
  }

  /** What Number(x) yields for a present property: NaN, or a finite number.
      Floating-point rounding is not modelled; finite numbers are exact reals. */
  datatype JsNumber = NaN | Finite(value: real)
}
